=== FILE: README.md ===
# Redis caching and call-tracking decorators, in Dafny

This project models the two Redis exercises of `0x02-redis_basic`:

- **`count_and_cache`** (`web.py`): the decorator around `get_page(url)`. Every call
  increments `count:<url>`. If `cached:<url>` holds a non-empty page, that page is
  returned. Otherwise the page is fetched, stored under `cached:<url>` with a 10-unit
  expiry, and returned.
- **`Cache`** (`exercise.py`):
  - `count_calls` counts calls under the method's qualified name.
  - `call_history` appends `str(args)` to `<name>:inputs` and each result to `<name>:outputs`.
  - `store` writes data under a freshly generated key and returns that key.
  - `get`, `get_str` and `get_int` read values back.
  - `replay` renders the recorded history.

The Redis server is an immutable value, `Redis.Db`. It is a map from key names to
entries plus the server's integer clock. Each entry is a string, an INCR counter or an
RPUSH list, with an optional absolute expiry time. From the clock reading equal to
its expiry time on, a key is absent to every command. Each Redis command the scripts use is
a pure function. `Incr`, `Read`, `RPush` and `LRange` return a `Result` whose `Err`
carries the error Redis would raise. `Set`, `SetEx` and `Flush` cannot fail and return
the new `Db`. EXISTS is `Live`, used inside `Exercise.CallCount`. Time passes only
through `Wait`.

Each decorated call is a pure function from a store to the new store and the
returned value:

- `Web.Wrapper` is one call of the decorated `get_page`.
- `Exercise.Store` is `Cache.store` with both of its decorators.
- `Exercise.Replay` returns the lines `replay` would print.

The argument text `call_history` records is `str(args)`, a one-item tuple holding
`repr(data)`. `Repr.StrRepr` models that `repr`: single quotes unless the data holds
a single quote and no double quote, with backslashes, the chosen quote, newline,
carriage return, tab and other ASCII control characters escaped.

Several inputs are parameters:

- The HTTP fetch is a function parameter `fetch`. The `fetched` flag of a `Web.Visit`
  records whether the wrapper called it.
- The key `uuid.uuid4()` would produce is a parameter of `Store`.
- Python's `int(...)` parsing of text is a parameter `parse`.
- `Exercise.Cache.bound` stands for the `isinstance(self._redis, redis.Redis)` tests.
- `replay`'s "`fn` is None or not a bound method" case is the `None` target.

Files: `wrappers.dfy` (Option, Result), `redis.dfy` (the store), `web.dfy`
(`count_and_cache`), `repr.dfy` (Python's `repr` of a string), `exercise.dfy`
(`Cache` and its decorators).

## Model

| member | source | states |
|---|---|---|
| Redis.Incr | 0x02-redis_basic/web.py:37 | INCR succeeds exactly when the key is absent or holds a counter below the signed 64-bit maximum. At that maximum it raises an overflow error. The new count is the old count (0 when absent) plus one, and the key reads back as that counter. A counter created from nothing has no expiry, and an existing counter keeps its expiry. No other key changes. |
| Redis.Read | 0x02-redis_basic/web.py:39 | GET raises exactly on a live list. It returns None exactly when the key is absent or lapsed. A string reads back as itself, and a counter reads as its decimal text `Show(count)`. |
| Redis.SetEx | 0x02-redis_basic/web.py:44 | SETEX makes the key read back as the given string, lapsing `ttl` units after the current clock. It writes no other key. |
| Redis.SetExWindow | 0x02-redis_basic/web.py:44 | A SETEX value reads back after waiting fewer than `ttl` units. From `ttl` units on, GET returns None. |
| Redis.Set | 0x02-redis_basic/exercise.py:107 | SET makes the key read back as the given string with no expiry, whatever the key held before. No other key changes. |
| Redis.RPush | 0x02-redis_basic/exercise.py:49 | RPUSH succeeds exactly when the key is absent or a list. The list afterwards is the old list (empty when absent) with the value appended. No other key changes. |
| Redis.LRange | 0x02-redis_basic/exercise.py:77-78 | LRANGE 0 -1 raises exactly on a live non-list. Otherwise it returns the whole list, empty when absent. |
| Redis.Flush | 0x02-redis_basic/exercise.py:92 | After FLUSHDB no key is live, and the clock is unchanged. |
| Web.KeysNeverCollide | 0x02-redis_basic/web.py:34-35 | `count:<u>` is never `cached:<v>`, for any two URLs. Each key names exactly one URL. |
| Web.Wrapper | 0x02-redis_basic/web.py:34-45 | A call raises exactly when the counter key holds a non-counter or the 64-bit maximum, or the cache key holds a list. On success the counter key holds a counter exactly one above the old count. A live counter keeps its expiry, and a counter created from nothing has none. The fetch runs exactly when the cached value is None or empty. On a hit, the cached text is returned and only the counter changed. On a miss, the fetched page is returned and cached for 10 units from now. Every call leaves all keys except the two URL keys unchanged. |
| Web.WrapperKeepsReady | 0x02-redis_basic/web.py:37-44 | From a store whose counter persists, is below the 64-bit maximum, and whose cache key is not a list, a call succeeds. Afterwards the counter still persists and the cache key is still not a list. |
| Web.CounterCountsCalls | 0x02-redis_basic/web.py:37 | From a ready store (the counter persists and the cache key is not a list), any series of calls at any spacing that keeps the counter within 64 bits succeeds. It returns one page per call and raises the counter by exactly the number of calls, hits and misses alike. It touches no key of another URL. |
| Web.CounterStartsFromZero | 0x02-redis_basic/web.py:37 | From a store where `count:<url>` is absent or lapsed and whose cache key is not a list, N calls (N within 64 bits) in any mix of hits and misses succeed and leave the counter at exactly N. |
| Web.EmptyCachedIsMiss | 0x02-redis_basic/web.py:40 | A cached empty string is falsy, so the call, which succeeds exactly when the counter is below the 64-bit maximum, fetches again and returns the fetched page. |
| Web.HitWithinTtl | 0x02-redis_basic/web.py:39-41 | Fewer than 10 units after a miss cached a non-empty page, a call succeeds exactly when the counter is below the 64-bit maximum. It returns that page without fetching. Whatever the fetch would now return, the call changes nothing but the counter. |
| Web.RefetchAfterTtl | 0x02-redis_basic/web.py:43-44 | At or after 10 units from a miss, a call succeeds exactly when the counter is below the 64-bit maximum. It fetches again and returns the new content. It caches that content with an expiry reset to 10 units from the new time. |
| Web.ThreeQuickCalls | 0x02-redis_basic/web.py:30-45 | Three calls in quick succession on an empty store, with the fetch returning "hello", all return "hello". They make exactly one fetch and leave the counter at 3. |
| Exercise.TrackingKeysDistinct | 0x02-redis_basic/exercise.py:47-48 | A method's counter, inputs key and outputs key are three different keys. |
| Exercise.UuidAvoidsTracking | 0x02-redis_basic/exercise.py:106 | A key shaped like `str(uuid4())` is never one of the three bookkeeping keys of `Cache.store`. |
| Exercise.NewCache | 0x02-redis_basic/exercise.py:89-92 | A new `Cache` is bound to a Redis client and its store has no live key. |
| Exercise.Bump | 0x02-redis_basic/exercise.py:28-29 | When bound, the key named after the method holds a counter exactly one above the old count. A live counter keeps its expiry, a new one has none, and no other key changes. This raises exactly when that key holds a non-counter or the 64-bit maximum. When not bound, nothing happens. |
| Exercise.Append | 0x02-redis_basic/exercise.py:49-53 | When bound, exactly one entry is appended to the history list and no other key changes. This raises exactly on a non-list. When not bound, nothing happens. |
| Exercise.CountCalls | 0x02-redis_basic/exercise.py:26-30 | The method runs once, on the cache after the counter increment. If the increment raises, the method does not run. When not bound, the method runs on the untouched cache. |
| Exercise.CallHistory | 0x02-redis_basic/exercise.py:45-54 | The call succeeds exactly when the inputs push succeeds, the method succeeds, and (when still bound) the outputs key is absent or a list. On success, the method ran on the cache after the inputs push. The value returned is the method's output. When bound, exactly that output was appended to `<name>:outputs` and nothing else changed after the method. |
| Repr.StrRepr | 0x02-redis_basic/exercise.py:49 | `repr(s)` is delimited by single quotes, or by double quotes exactly when `s` holds a single quote and no double quote. The text between the delimiters reads back as `s`. No ASCII control character appears in it. |
| Repr.EscapeRoundTrip | 0x02-redis_basic/exercise.py:49 | Escaping a string for either delimiter loses nothing: unescaping the result gives the original string. |
| Repr.ReprPlain | 0x02-redis_basic/exercise.py:49 | `repr("ok")` is `'ok'`. |
| Repr.ReprApostrophe | 0x02-redis_basic/exercise.py:49 | `repr("'s")` switches to double quotes: `"'s"`. |
| Repr.ReprNewline | 0x02-redis_basic/exercise.py:49 | `repr("a\n")` writes the newline as a backslash and `n`. |
| Exercise.ArgsTextReadsBack | 0x02-redis_basic/exercise.py:49 | The recorded `str(args)` of `store(data)` is a one-item tuple `(<q><text><q>,)`. The quote q is the one `repr(data)` chooses, and the text reads back as the data. |
| Exercise.StoreBody | 0x02-redis_basic/exercise.py:106-108 | The undecorated `store` returns the generated key, and that key reads back as the data. No other key changes. |
| Exercise.Store | 0x02-redis_basic/exercise.py:94-108 | `store` raises exactly when the cache is bound and a bookkeeping key holds the wrong kind of value, the counter is at the 64-bit maximum, or the generated key is the outputs key. On success it returns the key, and the key reads back as the data. With a key outside the bookkeeping keys, the counter rises by one. The inputs list then gains `str(args)`, the outputs list gains the key, and nothing else changes. When not bound, only the key is written. |
| Exercise.StoreStep | 0x02-redis_basic/exercise.py:94-108 | With a uuid-shaped key on a tracked cache whose counter is below the 64-bit maximum, one `store` succeeds. It counts once and records its argument text and its returned key. |
| Exercise.StoresAreTracked | 0x02-redis_basic/exercise.py:94-108 | On a tracked cache, n stores with uuid-shaped keys that keep the counter within 64 bits all succeed and return their keys in order. They add n to the counter. They append the n argument texts to the inputs and the n keys to the outputs, in order. |
| Exercise.FreshCacheHistory | 0x02-redis_basic/exercise.py:89-108 | After n stores (n within 64 bits) on a new `Cache`, the counter is n. The inputs list is exactly the n argument texts, and the outputs list is exactly the returned keys. |
| Exercise.StoreThenGet | 0x02-redis_basic/exercise.py:106-123 | After a successful `store`, `get(key)` with no `fn` returns the stored data, and so does `get_str(key)`. |
| Exercise.Get | 0x02-redis_basic/exercise.py:122-123 | `get` raises exactly when the key holds a list. It returns the raw GET result without `fn` and `fn` applied to it otherwise. It returns no new store: reading never changes the store. |
| Exercise.GetStr | 0x02-redis_basic/exercise.py:135 | `get_str` succeeds exactly when GET returns a value, and then returns that value. |
| Exercise.GetInt | 0x02-redis_basic/exercise.py:147 | `get_int` succeeds exactly when GET returns a value that parses as an integer, and then returns that integer. |
| Exercise.Zip | 0x02-redis_basic/exercise.py:79 | `zip` yields min(\|xs\|, \|ys\|) pairs, and pair i is (xs[i], ys[i]). |
| Exercise.CallCount | 0x02-redis_basic/exercise.py:73-75 | The reported count is 0 when the counter key does not exist and the stored count when it holds a counter. A stored string is converted as `get_int` converts it. Reading a list raises. |
| Exercise.Replay | 0x02-redis_basic/exercise.py:65-80 | `replay` prints nothing without a bound Redis store. If reading the count raises, nothing is printed. If an LRANGE raises, only the header has been printed. When the count reads and both history keys are absent or lists, it raises nothing and prints a header with that count and then min(\|inputs\|, \|outputs\|) lines. Line i pairs input i with output i. |
| Exercise.ReplayAfterStores | 0x02-redis_basic/exercise.py:73-80 | After n stores on a new `Cache`, `replay(cache.store)` raises nothing and prints the count n and then n lines. Line i pairs the i-th argument text with the i-th returned key. |
| Exercise.ReplayFresh | 0x02-redis_basic/exercise.py:73-76 | On a new `Cache`, `replay` raises nothing and prints only the header with count 0. |

## Left out

- The Redis connection, network errors and the asynchronous flag of `flushdb(True)` are left out. The store is an abstract value, so there is no connection to fail.
- `requests.get` and all HTTP behaviour are left out. The fetch is an arbitrary function from URL to page text.
- `uuid.uuid4()` randomness is left out. The generated key is a parameter. Only the uuid text shape is used, and only by lemmas; uniqueness is not assumed, because the code does not rely on it.
- UTF-8 encoding and decoding are left out. Stored bytes are modelled as strings, and `.decode('utf-8')` is the identity.
- Exercise.Store: the data is text only. `int`, `float` and `bytes` payloads and Redis's stringification of them are left out.
- Exercise.ArgsText: `str(args)` is modelled for the positional call `store(data)` only. A keyword call `store(data=x)` has empty `args`, so the code records `()` there.
- Repr.StrRepr: non-ASCII characters are copied unchanged. Python also escapes the non-ASCII characters it deems non-printable (as `\xhh`, `\uhhhh` or `\Uhhhhhhhh`), and that Unicode printability table is not modelled.
- Exercise.GetInt: Python's `int(...)` is the `parse` parameter, not a definition of integer parsing.
- Exercise.CallCount: a counter is read as its number. A string value goes through the same `parse` parameter.
- Redis.Incr: INCR on a string value raises `NotAnInteger`. Real Redis also increments a string that spells a decimal integer. Neither script can create such a string under a counter key.
- Exercise.Replay: each output is printed as the bytes object LRANGE returned, `b'<key>'`, just as the code does. The line is built without Python's repr escaping.
- Exercise.CountCalls and Exercise.CallHistory: the decorators are modelled for methods that return a string. `store` is the only decorated method.
- A failed call returns `Err` without the store. (`replay` is the exception: its output printed before an exception is modelled.) So writes that Redis had already made before the exception are not modelled: the counter incremented before a failing GET, or the input pushed before a failing method.
- Expiry is on an integer clock, and a key lapses at the reading equal to its expiry time. Redis compares millisecond times and still serves a key at the exact expiry instant, a difference finer than the model's clock.
- Concurrent calls and miss races are left out. Every call is one sequential state transition.
- Redis's background deletion of expired keys is left out. Lazy expiry gives the same answers to every command the scripts use.
- `print` is left out: `replay` returns its lines.
- `0x01-NoSQL` is not part of this model. Its functions are one-call pass-throughs to a MongoDB client library whose behaviour is not in view.

=== FILE: exercise.dfy ===
/**
 The `Cache` class and its two tracking decorators: `count_calls` counts
 the calls of a method under the method's qualified name, `call_history`
 appends each call's argument text to `<name>:inputs` and its result to
 `<name>:outputs`, and `replay` renders that history as lines of text.

 A cache is its store plus `bound`, which stands for "the cache's `_redis`
 attribute is a Redis client": the decorators skip their bookkeeping when it
 is false. The random key `store` generates is a parameter.
 */
module Exercise {
  import opened Wrappers
  import opened Redis
  import opened Repr

  /** The qualified name of the decorated method. */
  const StoreName := "Cache.store"

  function InputsKey(name: string): string {
    name + ":inputs"
  }

  function OutputsKey(name: string): string {
    name + ":outputs"
  }

  /** The three keys the decorators write for a method called `name`. */
  function TrackingKeys(name: string): set<string> {
    {name, InputsKey(name), OutputsKey(name)}
  }

  /** The counter and the two history lists of a method are three different keys. */
  lemma TrackingKeysDistinct(name: string)
    ensures name != InputsKey(name) && name != OutputsKey(name)
    ensures InputsKey(name) != OutputsKey(name)
  {
    assert InputsKey(name)[|name| + 1] == 'i';
    assert OutputsKey(name)[|name| + 1] == 'o';
  }

  /** The shape of `str(uuid.uuid4())`: 36 lower-case hex digits and dashes in the 8-4-4-4-12 layout. */
  predicate IsUuid(k: string) {
    && |k| == 36
    && forall i :: 0 <= i < |k| ==>
         if i == 8 || i == 13 || i == 18 || i == 23 then k[i] == '-' else k[i] in "0123456789abcdef"
  }

  /** A generated key can never overwrite the bookkeeping of `store`. */
  lemma UuidAvoidsTracking(k: string)
    requires IsUuid(k)
    ensures k !in TrackingKeys(StoreName)
  {
    assert k[0] in "0123456789abcdef";
    assert StoreName[0] == 'C';
    assert InputsKey(StoreName)[0] == 'C';
    assert OutputsKey(StoreName)[0] == 'C';
  }

  /** The store behind a cache, and whether its `_redis` is a Redis client. */
  datatype Cache = Cache(db: Db, bound: bool)

  /** A method call's result: the cache afterwards and the string it returned. */
  datatype Call = Call(cache: Cache, output: string)

  /** `Cache()`: connect to the server and flush it. */
  function NewCache(server: Db): (c: Cache)
    ensures c.bound
    ensures forall k :: !Live(c.db, k)
    ensures c.db.clock == server.clock
  {
    Cache(Flush(server), true)
  }

  /** The tracking keys of `name` hold the kinds of value the decorators write, or are absent. */
  predicate Tracked(db: Db, name: string) {
    Countable(db, name) && Listable(db, InputsKey(name)) && Listable(db, OutputsKey(name))
  }

  /** The step `count_calls` takes before the call: INCR the method's name when bound. */
  function Bump(cache: Cache, name: string): (r: Result<Cache, Error>)
    ensures !cache.bound ==> r == Ok(cache)
    ensures cache.bound ==> (r.Ok? <==> Incrementable(cache.db, name))
    ensures r.Ok? ==> r.value.bound == cache.bound
    ensures cache.bound && r.Ok? ==>
              && Lookup(r.value.db, name) == Some(Counter(CountOf(cache.db, name) + 1))
              && (Live(cache.db, name) ==> r.value.db.entries[name].expireAt == cache.db.entries[name].expireAt)
              && (!Live(cache.db, name) ==> r.value.db.entries[name].expireAt.None?)
              && CountOf(r.value.db, name) == CountOf(cache.db, name) + 1
              && Live(r.value.db, name)
              && Frame(cache.db, r.value.db, {name})
  {
    if cache.bound then
      var counted :- Incr(cache.db, name);
      Ok(cache.(db := counted.0))
    else
      Ok(cache)
  }

  /** An RPUSH of `call_history`: append `v` to the list under `key` when bound. */
  function Append(cache: Cache, key: string, v: string): (r: Result<Cache, Error>)
    ensures !cache.bound ==> r == Ok(cache)
    ensures cache.bound ==> (r.Ok? <==> Listable(cache.db, key))
    ensures r.Ok? ==> r.value.bound == cache.bound
    ensures cache.bound && r.Ok? ==>
              && Items(r.value.db, key) == Items(cache.db, key) + [v]
              && Listable(r.value.db, key)
              && Frame(cache.db, r.value.db, {key})
  {
    if cache.bound then
      var db' :- RPush(cache.db, key, v);
      Ok(cache.(db := db'))
    else
      Ok(cache)
  }

  /** `count_calls(method)` applied to `cache`: the method runs on the counted cache, or not at all if counting raises. */
  function CountCalls(name: string, wrapped: Cache -> Result<Call, Error>, cache: Cache): (r: Result<Call, Error>)
    ensures Bump(cache, name).Err? ==> r.Err?
    ensures Bump(cache, name).Ok? ==> r == wrapped(Bump(cache, name).value)
    ensures !cache.bound ==> r == wrapped(cache)
  {
    var counted :- Bump(cache, name);
    wrapped(counted)
  }

  /** `call_history(method)` applied to `cache` with argument text `args`. */
  function CallHistory(name: string, args: string, wrapped: Cache -> Result<Call, Error>, cache: Cache): (r: Result<Call, Error>)
    ensures r.Ok? <==>
              var before := Append(cache, InputsKey(name), args);
              && before.Ok?
              && wrapped(before.value).Ok?
              && (!wrapped(before.value).value.cache.bound
                  || Listable(wrapped(before.value).value.cache.db, OutputsKey(name)))
    ensures r.Ok? ==>
              var before := Append(cache, InputsKey(name), args).value;
              var inner := wrapped(before);
              && inner.Ok?
              && r.value.output == inner.value.output
              && r.value.cache.bound == inner.value.cache.bound
              && (inner.value.cache.bound ==>
                    && Items(r.value.cache.db, OutputsKey(name))
                       == Items(inner.value.cache.db, OutputsKey(name)) + [inner.value.output]
                    && Frame(inner.value.cache.db, r.value.cache.db, {OutputsKey(name)}))
              && (!inner.value.cache.bound ==> r.value.cache == inner.value.cache)
  {
    var before :- Append(cache, InputsKey(name), args);
    var inner :- wrapped(before);
    var after :- Append(inner.cache, OutputsKey(name), inner.output);
    Ok(Call(after, inner.output))
  }

  /** `str(args)` for the single positional argument of `store`: a one-item tuple holding `repr(data)`. */
  function ArgsText(data: string): string {
    "(" + StrRepr(data) + ",)"
  }

  /** The recorded argument text is a one-item tuple whose quoted item reads back as the data. */
  lemma ArgsTextReadsBack(data: string)
    ensures var r := ArgsText(data);
            && |r| >= 5 && r[0] == '(' && r[|r| - 2..] == ",)"
            && r[1] == Quote(data) && r[|r| - 3] == Quote(data)
            && Unescape(r[2..|r| - 3]) == data
  {
    var text := StrRepr(data);
    var r := ArgsText(data);
    assert r[2..|r| - 3] == text[1..|text| - 1];
  }

  /** The undecorated body of `store`: SET the generated key to the data and return the key. */
  function StoreBody(cache: Cache, data: string, key: string): (r: Result<Call, Error>)
    ensures r.Ok? && r.value.output == key && r.value.cache.bound == cache.bound
    ensures Lookup(r.value.cache.db, key) == Some(Text(data))
    ensures Frame(cache.db, r.value.cache.db, {key})
  {
    Ok(Call(cache.(db := Set(cache.db, key, data)), key))
  }

  /** The undecorated `store` with `count_calls` applied: the method `call_history` wraps. */
  function CountedStore(data: string, key: string): Cache -> Result<Call, Error> {
    (s: Cache) => CountCalls(StoreName, (s': Cache) => StoreBody(s', data, key), s)
  }

  /** The counted `store` on its own: it raises only when counting does, and then sets the key. */
  lemma CountedStoreStep(s: Cache, data: string, key: string)
    ensures CountedStore(data, key)(s).Ok? <==> !s.bound || Incrementable(s.db, StoreName)
    ensures CountedStore(data, key)(s).Ok? ==>
              var c := CountedStore(data, key)(s).value;
              && c.output == key && c.cache.bound == s.bound
              && Lookup(c.cache.db, key) == Some(Text(data))
              && (!s.bound ==> Frame(s.db, c.cache.db, {key}))
              && (s.bound && key != StoreName ==>
                    && CountOf(c.cache.db, StoreName) == CountOf(s.db, StoreName) + 1
                    && Countable(c.cache.db, StoreName)
                    && Frame(s.db, c.cache.db, {StoreName, key}))
  {
  }

  /** On a bound cache whose inputs key takes the push, the decorated `store` succeeds exactly when counting and the outputs push do. */
  lemma StoreSucceedsBound(cache: Cache, args: string, data: string, key: string)
    requires cache.bound && Listable(cache.db, InputsKey(StoreName))
    ensures CallHistory(StoreName, args, CountedStore(data, key), cache).Ok?
            <==> Incrementable(cache.db, StoreName) && Listable(cache.db, OutputsKey(StoreName)) && key != OutputsKey(StoreName)
  {
    TrackingKeysDistinct(StoreName);
    var outs := OutputsKey(StoreName);
    var b := Append(cache, InputsKey(StoreName), args).value;
    CountedStoreStep(b, data, key);
    assert Lookup(b.db, StoreName) == Lookup(cache.db, StoreName);
    assert Lookup(b.db, outs) == Lookup(cache.db, outs);
    var inner := CountedStore(data, key)(b);
    if inner.Ok? {
      if key == outs {
        assert !Listable(inner.value.cache.db, outs);
      } else {
        assert Lookup(inner.value.cache.db, outs) == Lookup(b.db, outs);
      }
    }
  }

  /** When the decorated `store` succeeds, for any recorded argument text `args`. */
  lemma StoreSucceeds(cache: Cache, args: string, data: string, key: string)
    ensures CallHistory(StoreName, args, CountedStore(data, key), cache).Ok?
            <==> !cache.bound || (Tracked(cache.db, StoreName) && CountOf(cache.db, StoreName) < MaxCount
                                  && key != OutputsKey(StoreName))
  {
    if !cache.bound {
      CountedStoreStep(cache, data, key);
    } else if Listable(cache.db, InputsKey(StoreName)) {
      StoreSucceedsBound(cache, args, data, key);
    }
  }

  /** What the decorated `store` returns and sets when it succeeds, for any recorded argument text `args`. */
  lemma StoreEffects(cache: Cache, args: string, data: string, key: string)
    requires CallHistory(StoreName, args, CountedStore(data, key), cache).Ok?
    ensures var r := CallHistory(StoreName, args, CountedStore(data, key), cache).value;
            && r.output == key && r.cache.bound == cache.bound
            && Lookup(r.cache.db, key) == Some(Text(data))
            && (!cache.bound ==> Frame(cache.db, r.cache.db, {key}))
  {
    TrackingKeysDistinct(StoreName);
    CountedStoreStep(Append(cache, InputsKey(StoreName), args).value, data, key);
  }

  /** What a successful decorated `store` records on a bound cache, for any recorded argument text `args`. */
  lemma StoreRecords(cache: Cache, args: string, data: string, key: string)
    requires CallHistory(StoreName, args, CountedStore(data, key), cache).Ok?
    requires cache.bound && key !in TrackingKeys(StoreName)
    ensures var r := CallHistory(StoreName, args, CountedStore(data, key), cache).value;
            && CountOf(r.cache.db, StoreName) == CountOf(cache.db, StoreName) + 1
            && Items(r.cache.db, InputsKey(StoreName)) == Items(cache.db, InputsKey(StoreName)) + [args]
            && Items(r.cache.db, OutputsKey(StoreName)) == Items(cache.db, OutputsKey(StoreName)) + [key]
            && Tracked(r.cache.db, StoreName)
            && Frame(cache.db, r.cache.db, TrackingKeys(StoreName) + {key})
  {
    TrackingKeysDistinct(StoreName);
    var ins, outs := InputsKey(StoreName), OutputsKey(StoreName);
    var b := Append(cache, ins, args).value;
    CountedStoreStep(b, data, key);
    var inner := CountedStore(data, key)(b).value;
    assert Lookup(b.db, StoreName) == Lookup(cache.db, StoreName);
    assert Lookup(inner.cache.db, ins) == Lookup(b.db, ins);
    assert Lookup(inner.cache.db, outs) == Lookup(cache.db, outs);
  }

  /** `Cache.store(data)`, decorated by `call_history` over `count_calls`, with `key` the generated uuid text. */
  function Store(cache: Cache, data: string, key: string): (r: Result<Call, Error>)
    ensures r.Ok? <==> !cache.bound || (Tracked(cache.db, StoreName) && CountOf(cache.db, StoreName) < MaxCount
                                        && key != OutputsKey(StoreName))
    ensures r.Ok? ==> r.value.output == key && r.value.cache.bound == cache.bound
    ensures r.Ok? ==> Lookup(r.value.cache.db, key) == Some(Text(data))
    ensures r.Ok? && !cache.bound ==> Frame(cache.db, r.value.cache.db, {key})
    ensures r.Ok? && cache.bound && key !in TrackingKeys(StoreName) ==>
              && CountOf(r.value.cache.db, StoreName) == CountOf(cache.db, StoreName) + 1
              && Items(r.value.cache.db, InputsKey(StoreName)) == Items(cache.db, InputsKey(StoreName)) + [ArgsText(data)]
              && Items(r.value.cache.db, OutputsKey(StoreName)) == Items(cache.db, OutputsKey(StoreName)) + [key]
              && Tracked(r.value.cache.db, StoreName)
              && Frame(cache.db, r.value.cache.db, TrackingKeys(StoreName) + {key})
  {
    var args := ArgsText(data);
    StoreSucceeds(cache, args, data, key);
    var r := CallHistory(StoreName, args, CountedStore(data, key), cache);
    if r.Ok? then
      StoreEffects(cache, args, data, key);
      if cache.bound && key !in TrackingKeys(StoreName) then StoreRecords(cache, args, data, key); r else r
    else
      r
  }

  /** What `get` returns: the raw GET result, or the conversion applied to it. */
  datatype Fetched<T> = Raw(data: Option<string>) | Converted(value: T)

  /** `Cache.get(key, fn)`: GET the key and apply `fn` when one is given. It returns no cache: the store is left as it was. */
  function Get<T>(cache: Cache, key: string, fn: Option<Option<string> -> T>): (r: Result<Fetched<T>, Error>)
    ensures r.Err? <==> HoldsList(cache.db, key)
    ensures r.Ok? && fn.None? ==> r.value == Raw(Read(cache.db, key).value)
    ensures r.Ok? && fn.Some? ==> r.value == Converted(fn.value(Read(cache.db, key).value))
  {
    var data :- Read(cache.db, key);
    match fn
    case None => Ok(Raw(data))
    case Some(f) => Ok(Converted(f(data)))
  }

  /** `x.decode('utf-8')` on what GET returned; `None` has no `decode`. */
  function Decode(x: Option<string>): Result<string, Error> {
    match x
    case None => Err(NoValue)
    case Some(s) => Ok(s)
  }

  /** `Cache.get_str(key)`. */
  function GetStr(cache: Cache, key: string): (r: Result<string, Error>)
    ensures r.Ok? <==> Read(cache.db, key).Ok? && Read(cache.db, key).value.Some?
    ensures r.Ok? ==> Read(cache.db, key) == Ok(Some(r.value))
  {
    match Get(cache, key, Some(Decode))
    case Err(e) => Err(e)
    case Ok(Converted(s)) => s
    case Ok(Raw(_)) => assert false; Err(WrongType)
  }

  /** `int(x)` on what GET returned, with `parse` standing for Python's integer parsing of text. */
  function ToInt(parse: string -> Option<int>, x: Option<string>): Result<int, Error> {
    match x
    case None => Err(NoValue)
    case Some(s) => if parse(s).Some? then Ok(parse(s).value) else Err(NotAnInteger)
  }

  /** `Cache.get_int(key)`. */
  function GetInt(cache: Cache, key: string, parse: string -> Option<int>): (r: Result<int, Error>)
    ensures r.Ok? <==> Read(cache.db, key).Ok? && Read(cache.db, key).value.Some?
                       && parse(Read(cache.db, key).value.value).Some?
    ensures r.Ok? ==> r.value == parse(Read(cache.db, key).value.value).value
  {
    match Get(cache, key, Some((x: Option<string>) => ToInt(parse, x)))
    case Err(e) => Err(e)
    case Ok(Converted(n)) => n
    case Ok(Raw(_)) => assert false; Err(WrongType)
  }

  /** Python's `zip`: pairs the i-th elements of both sequences, as many as the shorter has. */
  function Zip<A, B>(xs: seq<A>, ys: seq<B>): (r: seq<(A, B)>)
    ensures |r| == if |xs| < |ys| then |xs| else |ys|
    ensures forall i :: 0 <= i < |r| ==> r[i] == (xs[i], ys[i])
  {
    if xs == [] || ys == [] then [] else [(xs[0], ys[0])] + Zip(xs[1..], ys[1..])
  }

  /** The first line `replay` prints. */
  function Header(name: string, count: int): string {
    name + " was called " + Show(count) + " times:"
  }

  /** The line `replay` prints for one call; the output is printed as the bytes object LRANGE returned. */
  function PairLine(name: string, input: string, output: string): string {
    name + "(*" + input + ") -> b'" + output + "'"
  }

  /** The call count `replay` reports: 0 when the key does not exist, else the stored number. */
  function CallCount(db: Db, name: string, parse: string -> Option<int>): (r: Result<int, Error>)
    ensures !Live(db, name) ==> r == Ok(0)
    ensures Countable(db, name) ==> r == Ok(CountOf(db, name))
    ensures HoldsList(db, name) ==> r.Err?
    ensures Live(db, name) && db.entries[name].value.Text? ==> r == ToInt(parse, Some(db.entries[name].value.text))
  {
    if !Live(db, name) then
      Ok(0)
    else
      match db.entries[name].value
      case Counter(n) => Ok(n)
      case Text(s) => ToInt(parse, Some(s))
      case List(_) => Err(WrongType)
  }

  /** What `replay` printed, and the exception it raised afterwards, if any. */
  datatype Printed = Printed(lines: seq<string>, raised: Option<Error>)

  /**
   `replay(fn)`: the lines it prints and whether it then raises; `target` is the
   cache `fn` is bound to, `None` when `fn` is None or not a bound method.
   */
  function Replay(target: Option<Cache>, name: string, parse: string -> Option<int>): (r: Printed)
    ensures target.None? || !target.value.bound ==> r == Printed([], None)
    ensures target.Some? && target.value.bound && CallCount(target.value.db, name, parse).Err? ==>
              r == Printed([], Some(CallCount(target.value.db, name, parse).error))
    ensures target.Some? && target.value.bound && CallCount(target.value.db, name, parse).Ok?
            && !(Listable(target.value.db, InputsKey(name)) && Listable(target.value.db, OutputsKey(name))) ==>
              r == Printed([Header(name, CallCount(target.value.db, name, parse).value)], Some(WrongType))
    ensures target.Some? && target.value.bound && CallCount(target.value.db, name, parse).Ok?
            && Listable(target.value.db, InputsKey(name)) && Listable(target.value.db, OutputsKey(name)) ==>
              var ins := Items(target.value.db, InputsKey(name));
              var outs := Items(target.value.db, OutputsKey(name));
              var pairs := if |ins| < |outs| then |ins| else |outs|;
              && r.raised.None?
              && |r.lines| == 1 + pairs
              && r.lines[0] == Header(name, CallCount(target.value.db, name, parse).value)
              && forall i :: 0 <= i < pairs ==> r.lines[1 + i] == PairLine(name, ins[i], outs[i])
  {
    if target.None? || !target.value.bound then
      Printed([], None)
    else
      var db := target.value.db;
      match CallCount(db, name, parse)
      case Err(e) => Printed([], Some(e))
      case Ok(count) =>
        var header := Header(name, count);
        match LRange(db, InputsKey(name))
        case Err(e) => Printed([header], Some(e))
        case Ok(ins) =>
          match LRange(db, OutputsKey(name))
          case Err(e) => Printed([header], Some(e))
          case Ok(outs) =>
            var pairs := Zip(ins, outs);
            Printed([header] + seq(|pairs|, i requires 0 <= i < |pairs| => PairLine(name, pairs[i].0, pairs[i].1)), None)
  }

  /** The cache after storing each `datas[i]` under `keys[i]` in turn, and the keys `store` returned. */
  datatype Stored = Stored(cache: Cache, returned: seq<string>)

  function StoreAll(cache: Cache, datas: seq<string>, keys: seq<string>): Result<Stored, Error>
    requires |datas| == |keys|
    decreases |datas|
  {
    if datas == [] then
      Ok(Stored(cache, []))
    else
      var first :- Store(cache, datas[0], keys[0]);
      var rest :- StoreAll(first.cache, datas[1..], keys[1..]);
      Ok(Stored(rest.cache, [first.output] + rest.returned))
  }

  /** The argument texts `call_history` records for a series of `store` calls. */
  function ArgsTexts(datas: seq<string>): (r: seq<string>)
    ensures |r| == |datas|
    ensures forall i :: 0 <= i < |datas| ==> r[i] == ArgsText(datas[i])
  {
    if datas == [] then [] else [ArgsText(datas[0])] + ArgsTexts(datas[1..])
  }

  /** Every key a series of stores writes data to is a generated uuid. */
  predicate AllUuids(keys: seq<string>) {
    forall i :: 0 <= i < |keys| ==> IsUuid(keys[i])
  }

  /** One tracked store with a generated key succeeds, counts once, and records its argument text and its key. */
  lemma StoreStep(cache: Cache, data: string, key: string)
    requires cache.bound && Tracked(cache.db, StoreName) && IsUuid(key)
    requires CountOf(cache.db, StoreName) < MaxCount
    ensures Store(cache, data, key).Ok?
    ensures var after := Store(cache, data, key).value;
            && after.output == key
            && after.cache.bound
            && Tracked(after.cache.db, StoreName)
            && CountOf(after.cache.db, StoreName) == CountOf(cache.db, StoreName) + 1
            && Items(after.cache.db, InputsKey(StoreName)) == Items(cache.db, InputsKey(StoreName)) + [ArgsText(data)]
            && Items(after.cache.db, OutputsKey(StoreName)) == Items(cache.db, OutputsKey(StoreName)) + [key]
  {
    UuidAvoidsTracking(key);
  }

  /** A list that grows by `x` and then by `xs` has grown by `[x] + xs`. */
  lemma GrowsByPrefix<T>(before: seq<T>, mid: seq<T>, after: seq<T>, x: T, xs: seq<T>, all: seq<T>)
    requires mid == before + [x] && after == mid + xs && all == [x] + xs
    ensures after == before + all
  {
  }

  lemma AllUuidsTail(keys: seq<string>)
    requires |keys| > 0 && AllUuids(keys)
    ensures AllUuids(keys[1..])
  {
    forall i | 0 <= i < |keys[1..]| ensures IsUuid(keys[1..][i]) {
      assert keys[1..][i] == keys[i + 1];
    }
  }

  /** A series of stores is its first store followed by the rest. */
  lemma StoreAllCons(cache: Cache, datas: seq<string>, keys: seq<string>)
    requires |datas| == |keys| && |datas| > 0
    requires Store(cache, datas[0], keys[0]).Ok?
    requires StoreAll(Store(cache, datas[0], keys[0]).value.cache, datas[1..], keys[1..]).Ok?
    ensures var rest := StoreAll(Store(cache, datas[0], keys[0]).value.cache, datas[1..], keys[1..]).value;
            StoreAll(cache, datas, keys) == Ok(Stored(rest.cache, [keys[0]] + rest.returned))
    ensures keys == [keys[0]] + keys[1..]
  {
  }

  /** n tracked stores add n to the counter, n argument texts to the inputs and the n returned keys to the outputs. */
  lemma {:induction false} StoresAreTracked(cache: Cache, datas: seq<string>, keys: seq<string>)
    requires |datas| == |keys| && AllUuids(keys)
    requires cache.bound && Tracked(cache.db, StoreName)
    requires CountOf(cache.db, StoreName) + |datas| <= MaxCount
    ensures StoreAll(cache, datas, keys).Ok?
    ensures var after := StoreAll(cache, datas, keys).value;
            && after.returned == keys
            && after.cache.bound
            && Tracked(after.cache.db, StoreName)
            && CountOf(after.cache.db, StoreName) == CountOf(cache.db, StoreName) + |datas|
            && Items(after.cache.db, InputsKey(StoreName)) == Items(cache.db, InputsKey(StoreName)) + ArgsTexts(datas)
            && Items(after.cache.db, OutputsKey(StoreName)) == Items(cache.db, OutputsKey(StoreName)) + keys
    decreases |datas|
  {
    if datas != [] {
      StoreStep(cache, datas[0], keys[0]);
      var first := Store(cache, datas[0], keys[0]).value;
      AllUuidsTail(keys);
      StoresAreTracked(first.cache, datas[1..], keys[1..]);
      var rest := StoreAll(first.cache, datas[1..], keys[1..]).value;
      StoreAllCons(cache, datas, keys);
      var ins, outs := InputsKey(StoreName), OutputsKey(StoreName);
      GrowsByPrefix(Items(cache.db, ins), Items(first.cache.db, ins), Items(rest.cache.db, ins),
                    ArgsText(datas[0]), ArgsTexts(datas[1..]), ArgsTexts(datas));
      GrowsByPrefix(Items(cache.db, outs), Items(first.cache.db, outs), Items(rest.cache.db, outs),
                    keys[0], keys[1..], keys);
    }
  }

  /** On a fresh cache, after n stores the counter is n and both history lists have exactly n entries. */
  lemma FreshCacheHistory(server: Db, datas: seq<string>, keys: seq<string>)
    requires |datas| == |keys| && AllUuids(keys)
    requires |datas| <= MaxCount
    ensures StoreAll(NewCache(server), datas, keys).Ok?
    ensures StoreAll(NewCache(server), datas, keys).value.returned == keys
    ensures var after := StoreAll(NewCache(server), datas, keys).value.cache.db;
            && CountOf(after, StoreName) == |datas|
            && Items(after, InputsKey(StoreName)) == ArgsTexts(datas)
            && Items(after, OutputsKey(StoreName)) == keys
  {
    var c := NewCache(server);
    assert Tracked(c.db, StoreName);
    StoresAreTracked(c, datas, keys);
  }

  /** `get(key)` right after `store(data)` returned `key` reads `data` back, raw and through `get_str`. */
  lemma StoreThenGet(cache: Cache, data: string, key: string)
    requires Store(cache, data, key).Ok?
    ensures var after := Store(cache, data, key).value;
            && Get<string>(after.cache, after.output, None) == Ok(Raw(Some(data)))
            && GetStr(after.cache, after.output) == Ok(data)
  {
  }

  /** After n stores on a fresh cache, `replay` prints the count n and pairs the i-th argument text with the i-th key. */
  lemma ReplayAfterStores(server: Db, datas: seq<string>, keys: seq<string>, parse: string -> Option<int>)
    requires |datas| == |keys| && AllUuids(keys)
    requires |datas| <= MaxCount
    ensures StoreAll(NewCache(server), datas, keys).Ok?
    ensures var printed := Replay(Some(StoreAll(NewCache(server), datas, keys).value.cache), StoreName, parse);
            && printed.raised.None?
            && |printed.lines| == 1 + |datas|
            && printed.lines[0] == Header(StoreName, |datas|)
            && forall i :: 0 <= i < |datas| ==> printed.lines[1 + i] == PairLine(StoreName, ArgsText(datas[i]), keys[i])
  {
    FreshCacheHistory(server, datas, keys);
    var c := NewCache(server);
    StoresAreTracked(c, datas, keys);
  }

  /** `replay` of a method never called on a fresh cache prints only a zero count. */
  lemma ReplayFresh(server: Db, name: string, parse: string -> Option<int>)
    ensures Replay(Some(NewCache(server)), name, parse) == Printed([Header(name, 0)], None)
  {
    var c := NewCache(server);
    assert Tracked(c.db, name);
    var printed := Replay(Some(c), name, parse);
    assert |printed.lines| == 1 && printed.lines[0] == Header(name, 0);
    assert printed.lines == [Header(name, 0)];
  }
}

=== FILE: redis.dfy ===
/**
 An abstract Redis server: a map from key names to values, each with an
 optional absolute expiry time, and the server's integer clock.

 Expiry is lazy: an entry whose expiry time has been reached stays in the
 map, but every command treats its key as absent from that clock reading on.
 */
module Redis {
  import opened Wrappers

  /** What a command can raise. */
  datatype Error =
    | WrongType      // the key holds a value of another kind
    | NotAnInteger   // INCR, or int(...), on a value that is not a number
    | NoValue        // a conversion applied to the None that GET returned
    | Overflow       // INCR past the largest signed 64-bit integer

  /** The largest value an INCR counter can hold: Redis counters are signed 64-bit integers. */
  const MaxCount := 0x7FFF_FFFF_FFFF_FFFF

  /** The kinds of value the two scripts use: plain strings, INCR counters and RPUSH lists. */
  datatype Value = Text(text: string) | Counter(count: int) | List(items: seq<string>)

  /** A stored value and the clock reading at which it lapses, if any. */
  datatype Entry = Entry(value: Value, expireAt: Option<int>)

  datatype Db = Db(entries: map<string, Entry>, clock: int)

  /** The key exists and has not yet lapsed. */
  predicate Live(db: Db, k: string) {
    k in db.entries && (db.entries[k].expireAt.None? || db.clock < db.entries[k].expireAt.value)
  }

  /** The value a command sees under `k`. */
  function Lookup(db: Db, k: string): Option<Value> {
    if Live(db, k) then Some(db.entries[k].value) else None
  }

  /** The number INCR would start from: the counter's value, or 0 when the key is absent. */
  function CountOf(db: Db, k: string): int {
    match Lookup(db, k)
    case Some(Counter(n)) => n
    case _ => 0
  }

  /** The list LRANGE 0 -1 would read: empty when the key is absent. */
  function Items(db: Db, k: string): seq<string> {
    match Lookup(db, k)
    case Some(List(xs)) => xs
    case _ => []
  }

  /** `k` is absent or holds a counter, so INCR does not raise a type error. */
  predicate Countable(db: Db, k: string) {
    Lookup(db, k).None? || Lookup(db, k).value.Counter?
  }

  /** INCR on `k` cannot raise: a counter (or nothing) below the 64-bit limit. */
  predicate Incrementable(db: Db, k: string) {
    Countable(db, k) && CountOf(db, k) < MaxCount
  }

  /** RPUSH and LRANGE on `k` cannot raise. */
  predicate Listable(db: Db, k: string) {
    Lookup(db, k).None? || Lookup(db, k).value.List?
  }

  /** GET on `k` raises exactly when `k` holds a live list. */
  predicate HoldsList(db: Db, k: string) {
    Lookup(db, k).Some? && Lookup(db, k).value.List?
  }

  /** Every key outside `keys` has the same entry (or absence) in `db` and `db'`. */
  ghost predicate Untouched(db: Db, db': Db, keys: set<string>) {
    && (forall k :: k !in keys ==> (k in db.entries <==> k in db'.entries))
    && (forall k :: k !in keys && k in db.entries ==> db'.entries[k] == db.entries[k])
  }

  /** A command that only writes `keys`: no other key changes and no time passes. */
  ghost predicate Frame(db: Db, db': Db, keys: set<string>) {
    db'.clock == db.clock && Untouched(db, db', keys)
  }

  function DigitChar(d: nat): char
    requires d < 10
  {
    "0123456789"[d]
  }

  function Digits(n: nat): (s: string)
    ensures |s| > 0
  {
    if n < 10 then [DigitChar(n)] else Digits(n / 10) + [DigitChar(n % 10)]
  }

  /** The decimal text Redis keeps for an integer, as GET returns it. */
  function Show(n: int): (s: string)
    ensures |s| > 0
  {
    if n < 0 then "-" + Digits(-n) else Digits(n)
  }

  /** GET: the string under `k`, `None` when absent; a counter reads as its decimal text. */
  function Read(db: Db, k: string): (r: Result<Option<string>, Error>)
    ensures r.Err? <==> HoldsList(db, k)
    ensures r == Ok(None) <==> !Live(db, k)
    ensures Live(db, k) && db.entries[k].value.Text? ==> r == Ok(Some(db.entries[k].value.text))
    ensures Live(db, k) && db.entries[k].value.Counter? ==> r == Ok(Some(Show(db.entries[k].value.count)))
  {
    match Lookup(db, k)
    case None => Ok(None)
    case Some(Text(s)) => Ok(Some(s))
    case Some(Counter(n)) => Ok(Some(Show(n)))
    case Some(List(_)) => Err(WrongType)
  }

  /** INCR: add one to the counter under `k`, creating it at 1; returns the store and the new count. */
  function Incr(db: Db, k: string): (r: Result<(Db, int), Error>)
    ensures r.Ok? <==> Incrementable(db, k)
    ensures Countable(db, k) && !r.Ok? ==> r == Err(Overflow)
    ensures r.Ok? ==> r.value.1 == CountOf(db, k) + 1
    ensures r.Ok? ==> Lookup(r.value.0, k) == Some(Counter(r.value.1))
    ensures r.Ok? && !Live(db, k) ==> r.value.0.entries[k].expireAt.None?
    ensures r.Ok? && Live(db, k) ==> r.value.0.entries[k].expireAt == db.entries[k].expireAt
    ensures r.Ok? ==> Frame(db, r.value.0, {k})
  {
    match Lookup(db, k)
    case None => Ok((db.(entries := db.entries[k := Entry(Counter(1), None)]), 1))
    case Some(Counter(n)) =>
      if n >= MaxCount then Err(Overflow) else
      Ok((db.(entries := db.entries[k := Entry(Counter(n + 1), db.entries[k].expireAt)]), n + 1))
    case Some(Text(_)) => Err(NotAnInteger)
    case Some(List(_)) => Err(WrongType)
  }

  /** SET: store the string `v` under `k`, replacing any value and clearing any expiry. */
  function Set(db: Db, k: string, v: string): (db': Db)
    ensures Lookup(db', k) == Some(Text(v))
    ensures db'.entries[k].expireAt.None?
    ensures Frame(db, db', {k})
  {
    db.(entries := db.entries[k := Entry(Text(v), None)])
  }

  /** SETEX: store the string `v` under `k`, lapsing `ttl` clock units from now. */
  function SetEx(db: Db, k: string, ttl: int, v: string): (db': Db)
    requires ttl > 0
    ensures Lookup(db', k) == Some(Text(v))
    ensures db'.entries[k].expireAt == Some(db.clock + ttl)
    ensures Frame(db, db', {k})
  {
    db.(entries := db.entries[k := Entry(Text(v), Some(db.clock + ttl))])
  }

  /** RPUSH: append `v` to the list under `k`, creating the list when absent. */
  function RPush(db: Db, k: string, v: string): (r: Result<Db, Error>)
    ensures r.Ok? <==> Listable(db, k)
    ensures r.Ok? ==> Lookup(r.value, k) == Some(List(Items(db, k) + [v]))
    ensures r.Ok? ==> Frame(db, r.value, {k})
  {
    match Lookup(db, k)
    case None =>
      assert Items(db, k) + [v] == [v];
      Ok(db.(entries := db.entries[k := Entry(List([v]), None)]))
    case Some(List(xs)) => Ok(db.(entries := db.entries[k := Entry(List(xs + [v]), db.entries[k].expireAt)]))
    case Some(_) => Err(WrongType)
  }

  /** LRANGE k 0 -1: the whole list under `k`, empty when absent. */
  function LRange(db: Db, k: string): (r: Result<seq<string>, Error>)
    ensures r.Ok? <==> Listable(db, k)
    ensures r.Ok? ==> r.value == Items(db, k)
  {
    match Lookup(db, k)
    case None => Ok([])
    case Some(List(xs)) => Ok(xs)
    case Some(_) => Err(WrongType)
  }

  /** FLUSHDB: drop every key; the server's clock goes on. */
  function Flush(db: Db): (db': Db)
    ensures forall k :: !Live(db', k)
    ensures db'.clock == db.clock
  {
    Db(map[], db.clock)
  }

  /** Let `dt` units of time pass on the server. */
  function Wait(db: Db, dt: nat): (db': Db)
    ensures db'.entries == db.entries
    ensures db'.clock == db.clock + dt
  {
    db.(clock := db.clock + dt)
  }

  /** A SETEX value reads back for exactly `ttl` units of time, then is gone. */
  lemma SetExWindow(db: Db, k: string, ttl: int, v: string, dt: nat)
    requires ttl > 0
    ensures Read(Wait(SetEx(db, k, ttl, v), dt), k) == (if dt < ttl then Ok(Some(v)) else Ok(None))
  {
  }
}

=== FILE: repr.dfy ===
/**
 Python's `repr` of a string, as `str` of a tuple prints its items: the text
 between quotes, with the characters that would break the literal escaped.
 Non-ASCII characters are taken as printable and copied unchanged.
 */
module Repr {
  /** An ASCII control character: below the space, or DEL. */
  predicate IsControl(c: char) {
    (c as int) < 0x20 || (c as int) == 0x7F
  }

  /** The two delimiters `repr` chooses between. */
  predicate IsQuote(q: char) {
    q == '\'' || q == '"'
  }

  /** A lower-case hex digit, as `repr` writes it. */
  function HexDigit(d: nat): (c: char)
    requires d < 16
    ensures !IsControl(c) && c != '\\'
  {
    if d < 10 then ('0' as int + d) as char else ('a' as int + d - 10) as char
  }

  /** The value of a hex digit; 0 for any other character. */
  function HexValue(c: char): (d: nat)
    ensures d < 16
  {
    if '0' <= c <= '9' then (c as int) - ('0' as int)
    else if 'a' <= c <= 'f' then (c as int) - ('a' as int) + 10
    else 0
  }

  lemma HexRoundTrip(d: nat)
    requires d < 16
    ensures HexValue(HexDigit(d)) == d
  {
  }

  /** Single quotes, unless the text holds a single quote and no double quote. */
  function Quote(s: string): (q: char)
    ensures IsQuote(q)
    ensures q == '"' <==> '\'' in s && '"' !in s
  {
    if '\'' in s && '"' !in s then '"' else '\''
  }

  /** How `repr` writes one character of a literal delimited by `q`. */
  function EscapeChar(c: char, q: char): (r: string)
    requires IsQuote(q)
    ensures 1 <= |r| <= 4
    ensures forall i :: 0 <= i < |r| ==> !IsControl(r[i])
    ensures (|r| == 1) <==> (c != '\\' && c != q && !IsControl(c))
  {
    if c == '\\' then "\\\\"
    else if c == q then ['\\', q]
    else if c == '\n' then "\\n"
    else if c == '\r' then "\\r"
    else if c == '\t' then "\\t"
    else if IsControl(c) then ['\\', 'x', HexDigit((c as int) / 16), HexDigit((c as int) % 16)]
    else [c]
  }

  /** The text between the delimiters of `repr(s)`. */
  function Escape(s: string, q: char): (r: string)
    requires IsQuote(q)
    ensures forall i :: 0 <= i < |r| ==> !IsControl(r[i])
    ensures |r| >= |s|
    decreases |s|
  {
    if s == [] then [] else EscapeChar(s[0], q) + Escape(s[1..], q)
  }

  /** The character a backslash escape `\e` stands for, other than `\x`. */
  function Unescaped(e: char): char {
    if e == 'n' then '\n' else if e == 'r' then '\r' else if e == 't' then '\t' else e
  }

  /** Reads the text between the delimiters back, undoing every escape. */
  function Unescape(s: string): string
    decreases |s|
  {
    if |s| >= 4 && s[0] == '\\' && s[1] == 'x' then
      [(16 * HexValue(s[2]) + HexValue(s[3])) as char] + Unescape(s[4..])
    else if |s| >= 2 && s[0] == '\\' then
      [Unescaped(s[1])] + Unescape(s[2..])
    else if s == [] then
      []
    else
      [s[0]] + Unescape(s[1..])
  }

  /** Reading back one escaped character yields it, whatever follows. */
  lemma UnescapeStep(c: char, q: char, rest: string)
    requires IsQuote(q)
    ensures Unescape(EscapeChar(c, q) + rest) == [c] + Unescape(rest)
  {
    var e := EscapeChar(c, q);
    var s := e + rest;
    assert s[|e|..] == rest;
    if IsControl(c) && c != '\n' && c != '\r' && c != '\t' {
      var n := c as int;
      HexRoundTrip(n / 16);
      HexRoundTrip(n % 16);
      assert s[0] == '\\' && s[1] == 'x' && s[2] == HexDigit(n / 16) && s[3] == HexDigit(n % 16);
      assert (16 * (n / 16) + n % 16) as char == c;
    } else if |e| == 2 {
      assert s[0] == '\\' && s[1] != 'x';
    } else {
      assert s[0] == c;
    }
  }

  /** Escaping loses nothing: reading the text back gives the original string. */
  lemma {:induction false} EscapeRoundTrip(s: string, q: char)
    requires IsQuote(q)
    ensures Unescape(Escape(s, q)) == s
    decreases |s|
  {
    if s != [] {
      UnescapeStep(s[0], q, Escape(s[1..], q));
      EscapeRoundTrip(s[1..], q);
      assert s == [s[0]] + s[1..];
    }
  }

  /** `repr(s)`: the escaped text between the chosen delimiters. */
  function StrRepr(s: string): (r: string)
    ensures |r| >= 2 && r[0] == Quote(s) && r[|r| - 1] == Quote(s)
    ensures Unescape(r[1..|r| - 1]) == s
    ensures forall i :: 0 <= i < |r| ==> !IsControl(r[i])
  {
    var q := Quote(s);
    var body := Escape(s, q);
    EscapeRoundTrip(s, q);
    var r := [q] + body + [q];
    assert r[1..|r| - 1] == body;
    r
  }

  /** A plain string is copied between single quotes. */
  lemma ReprPlain()
    ensures StrRepr("ok") == "'ok'"
  {
    assert Quote("ok") == '\'';
    assert "ok"[1..] == "k" && "k"[1..] == [];
    assert EscapeChar('o', '\'') == "o" && EscapeChar('k', '\'') == "k";
    assert Escape("ok", '\'') == "ok";
  }

  /** An apostrophe with no double quote switches the delimiter to double quotes. */
  lemma ReprApostrophe()
    ensures StrRepr("'s") == "\"'s\""
  {
    assert Quote("'s") == '"' by { assert "'s"[0] == '\''; }
    assert "'s"[1..] == "s" && "s"[1..] == [];
    assert EscapeChar('\'', '"') == "'" && EscapeChar('s', '"') == "s";
    assert Escape("'s", '"') == "'s";
  }

  /** A newline is written as a backslash and `n`. */
  lemma ReprNewline()
    ensures StrRepr("a\n") == "'a\\n'"
  {
    assert Quote("a\n") == '\'';
    assert "a\n"[1..] == "\n" && "\n"[1..] == [];
    assert EscapeChar('a', '\'') == "a" && EscapeChar('\n', '\'') == "\\n";
    assert Escape("a\n", '\'') == "a\\n";
  }
}

=== FILE: web.dfy ===
/**
 The fetch-and-cache decorator around a page fetch: every call counts one
 access of the URL under `count:<url>`, serves the text cached under
 `cached:<url>` when that text is non-empty, and otherwise fetches the page
 and caches it for ten time units.

 The HTTP fetch is a function parameter; the `fetched` field of a visit
 records whether the wrapper invoked it.
 */
module Web {
  import opened Wrappers
  import opened Redis

  /** Lifetime of a cached page, in the server's clock units. */
  const CacheTtl := 10

  function CountKey(url: string): string {
    "count:" + url
  }

  function CacheKey(url: string): string {
    "cached:" + url
  }

  /** The access counter and the cached page never share a key, and each key names one URL. */
  lemma KeysNeverCollide(u: string, v: string)
    ensures CountKey(u) != CacheKey(v)
    ensures CountKey(u) == CountKey(v) ==> u == v
    ensures CacheKey(u) == CacheKey(v) ==> u == v
  {
    assert CountKey(u)[1] == 'o';
    assert CacheKey(v)[1] == 'a';
    assert CountKey(u)[6..] == u;
    assert CountKey(v)[6..] == v;
    assert CacheKey(u)[7..] == u;
    assert CacheKey(v)[7..] == v;
  }

  /** Python truthiness of what GET returned: present and non-empty. */
  predicate Truthy(cached: Option<string>) {
    cached.Some? && cached.value != ""
  }

  /** What GET on the cache key returns, `None` also when it would raise. */
  function Cached(db: Db, url: string): Option<string> {
    match Read(db, CacheKey(url))
    case Ok(c) => c
    case Err(_) => None
  }

  /** The store after a call, the page returned, and whether the fetch ran. */
  datatype Visit = Visit(db: Db, page: string, fetched: bool)

  /** One call of the decorated `get_page(url)`. */
  function Wrapper(db: Db, url: string, fetch: string -> string): (r: Result<Visit, Error>)
    ensures r.Ok? <==> Incrementable(db, CountKey(url)) && !HoldsList(db, CacheKey(url))
    ensures r.Ok? ==> CountOf(r.value.db, CountKey(url)) == CountOf(db, CountKey(url)) + 1
    ensures r.Ok? ==> Lookup(r.value.db, CountKey(url)) == Some(Counter(CountOf(db, CountKey(url)) + 1))
    ensures r.Ok? && Live(db, CountKey(url)) ==>
              r.value.db.entries[CountKey(url)].expireAt == db.entries[CountKey(url)].expireAt
    ensures r.Ok? && !Live(db, CountKey(url)) ==> r.value.db.entries[CountKey(url)].expireAt.None?
    ensures r.Ok? ==> (r.value.fetched <==> !Truthy(Cached(db, url)))
    ensures r.Ok? && !r.value.fetched ==>
              r.value.page == Cached(db, url).value && Frame(db, r.value.db, {CountKey(url)})
    ensures r.Ok? && r.value.fetched ==>
              && r.value.page == fetch(url)
              && Lookup(r.value.db, CacheKey(url)) == Some(Text(fetch(url)))
              && r.value.db.entries[CacheKey(url)].expireAt == Some(db.clock + CacheTtl)
    ensures r.Ok? ==> Frame(db, r.value.db, {CountKey(url), CacheKey(url)})
  {
    KeysNeverCollide(url, url);
    var counted :- Incr(db, CountKey(url));
    var db1 := counted.0;
    var cached :- Read(db1, CacheKey(url));
    if Truthy(cached) then
      Ok(Visit(db1, cached.value, false))
    else
      var page := fetch(url);
      Ok(Visit(SetEx(db1, CacheKey(url), CacheTtl, page), page, true))
  }

  /** The counter key keeps counting once it exists: it has lapsed, or it holds a counter with no expiry. */
  predicate CounterPersists(db: Db, url: string) {
    !Live(db, CountKey(url))
    || (db.entries[CountKey(url)].value.Counter? && db.entries[CountKey(url)].expireAt.None?)
  }

  /** A store on which any series of calls for `url` succeeds. */
  predicate Ready(db: Db, url: string) {
    CounterPersists(db, url) && !HoldsList(db, CacheKey(url))
  }

  /** The outcome of several calls: final store, the pages returned in order, and the number of fetches. */
  datatype Trail = Trail(db: Db, pages: seq<string>, fetches: nat)

  /** Calls for `url`, the i-th one made `gaps[i]` time units after the previous one. */
  function Visits(db: Db, url: string, fetch: string -> string, gaps: seq<nat>): Result<Trail, Error>
    decreases |gaps|
  {
    if gaps == [] then
      Ok(Trail(db, [], 0))
    else
      var v :- Wrapper(Wait(db, gaps[0]), url, fetch);
      var rest :- Visits(v.db, url, fetch, gaps[1..]);
      Ok(Trail(rest.db, [v.page] + rest.pages, (if v.fetched then 1 else 0) + rest.fetches))
  }

  /** A call from a ready store succeeds and leaves the store ready. */
  lemma WrapperKeepsReady(db: Db, url: string, fetch: string -> string)
    requires Ready(db, url) && CountOf(db, CountKey(url)) < MaxCount
    ensures Wrapper(db, url, fetch).Ok?
    ensures Ready(Wrapper(db, url, fetch).value.db, url)
  {
    KeysNeverCollide(url, url);
  }

  /**
   Each call adds exactly one to the counter, hit or miss, and touches no other URL's keys,
   as long as the counter stays within its 64-bit range.
   */
  lemma {:induction false} CounterCountsCalls(db: Db, url: string, fetch: string -> string, gaps: seq<nat>)
    requires Ready(db, url)
    requires CountOf(db, CountKey(url)) + |gaps| <= MaxCount
    ensures Visits(db, url, fetch, gaps).Ok?
    ensures CountOf(Visits(db, url, fetch, gaps).value.db, CountKey(url)) == CountOf(db, CountKey(url)) + |gaps|
    ensures |Visits(db, url, fetch, gaps).value.pages| == |gaps|
    ensures Untouched(db, Visits(db, url, fetch, gaps).value.db, {CountKey(url), CacheKey(url)})
    ensures Ready(Visits(db, url, fetch, gaps).value.db, url)
    decreases |gaps|
  {
    if gaps != [] {
      var w := Wait(db, gaps[0]);
      assert Ready(w, url);
      assert CountOf(w, CountKey(url)) == CountOf(db, CountKey(url));
      WrapperKeepsReady(w, url, fetch);
      var v := Wrapper(w, url, fetch).value;
      CounterCountsCalls(v.db, url, fetch, gaps[1..]);
    }
  }

  /** From a store that never counted `url`, n calls in any mix of hits and misses leave the counter at n. */
  lemma CounterStartsFromZero(db: Db, url: string, fetch: string -> string, gaps: seq<nat>)
    requires !Live(db, CountKey(url))
    requires !HoldsList(db, CacheKey(url))
    requires |gaps| <= MaxCount
    ensures Visits(db, url, fetch, gaps).Ok?
    ensures CountOf(Visits(db, url, fetch, gaps).value.db, CountKey(url)) == |gaps|
  {
    CounterCountsCalls(db, url, fetch, gaps);
  }

  /** A cached empty page is falsy: the call fetches again. */
  lemma EmptyCachedIsMiss(db: Db, url: string, fetch: string -> string)
    requires Countable(db, CountKey(url))
    requires Lookup(db, CacheKey(url)) == Some(Text(""))
    ensures Wrapper(db, url, fetch).Ok? <==> CountOf(db, CountKey(url)) < MaxCount
    ensures Wrapper(db, url, fetch).Ok? ==>
              Wrapper(db, url, fetch).value.fetched && Wrapper(db, url, fetch).value.page == fetch(url)
  {
  }

  /** Within the lifetime of a non-empty page cached by a miss, a call returns it without fetching or writing it. */
  lemma HitWithinTtl(db: Db, url: string, fetch: string -> string, later: string -> string, dt: nat)
    requires Wrapper(db, url, fetch).Ok? && Wrapper(db, url, fetch).value.fetched
    requires fetch(url) != ""
    requires dt < CacheTtl
    ensures var second := Wrapper(Wait(Wrapper(db, url, fetch).value.db, dt), url, later);
            && (second.Ok? <==> CountOf(Wait(Wrapper(db, url, fetch).value.db, dt), CountKey(url)) < MaxCount)
            && (second.Ok? ==>
                  && !second.value.fetched
                  && second.value.page == fetch(url)
                  && Frame(Wait(Wrapper(db, url, fetch).value.db, dt), second.value.db, {CountKey(url)}))
  {
    KeysNeverCollide(url, url);
    var first := Wrapper(db, url, fetch).value;
    var w := Wait(first.db, dt);
    assert Lookup(w, CacheKey(url)) == Some(Text(fetch(url)));
    assert Countable(w, CountKey(url));
  }

  /** At or after the lapse, a call fetches again and caches the new page for another lifetime. */
  lemma RefetchAfterTtl(db: Db, url: string, fetch: string -> string, later: string -> string, dt: nat)
    requires Wrapper(db, url, fetch).Ok? && Wrapper(db, url, fetch).value.fetched
    requires dt >= CacheTtl
    ensures var w := Wait(Wrapper(db, url, fetch).value.db, dt);
            var second := Wrapper(w, url, later);
            && (second.Ok? <==> CountOf(w, CountKey(url)) < MaxCount)
            && (second.Ok? ==>
                  && second.value.fetched
                  && second.value.page == later(url)
                  && Lookup(second.value.db, CacheKey(url)) == Some(Text(later(url)))
                  && second.value.db.entries[CacheKey(url)].expireAt == Some(w.clock + CacheTtl))
  {
    KeysNeverCollide(url, url);
    var first := Wrapper(db, url, fetch).value;
    var w := Wait(first.db, dt);
    assert !Live(w, CacheKey(url));
    assert Countable(w, CountKey(url));
  }

  /** Three quick calls on an empty store with a fetch returning "hello": one fetch, three "hello"s, count 3. */
  lemma ThreeQuickCalls()
    ensures var t := Visits(Db(map[], 0), "http://a.test", (u: string) => "hello", [0, 1, 1]);
            && t.Ok?
            && t.value.pages == ["hello", "hello", "hello"]
            && t.value.fetches == 1
            && CountOf(t.value.db, CountKey("http://a.test")) == 3
  {
    var url := "http://a.test";
    var fetch := (u: string) => "hello";
    KeysNeverCollide(url, url);
    var db0 := Db(map[], 0);
    var v1 := Wrapper(Wait(db0, 0), url, fetch);
    assert v1.Ok? && v1.value.fetched && v1.value.page == "hello";
    var v2 := Wrapper(Wait(v1.value.db, 1), url, fetch);
    HitWithinTtl(Wait(db0, 0), url, fetch, fetch, 1);
    assert v2.Ok? && !v2.value.fetched && v2.value.page == "hello";
    var v3 := Wrapper(Wait(v2.value.db, 1), url, fetch);
    assert Lookup(Wait(v2.value.db, 1), CacheKey(url)) == Some(Text("hello"));
    assert v3.Ok? && !v3.value.fetched && v3.value.page == "hello";
    CounterStartsFromZero(db0, url, fetch, [0, 1, 1]);
    assert [0, 1, 1][1..] == [1, 1];
    assert [1, 1][1..] == [1];
    assert [1][1..] == [];
  }
}

=== FILE: wrappers.dfy ===
/** Failure-compatible helper types shared by the whole model. */
module Wrappers {

  /** A value that may be absent (Python's `None`). */
  datatype Option<+T> = None | Some(value: T)

  /** The outcome of a call that may raise: `Err` carries the kind of exception. */
  datatype Result<+T, +E> = Ok(value: T) | Err(error: E) {

    predicate IsFailure() {
      Err?
    }

    function PropagateFailure<U>(): Result<U, E>
      requires Err?
    {
      Err(error)
    }

    function Extract(): T
      requires Ok?
    {
      value
    }
  }
}
